=== FILE: README.md ===
# vehicle-cache: a Dafny model of the refresh-and-publish core

vehicle-cache polls a bucket for three JSON documents (`shapes`, `alerts` and
`vehicles`). It keeps a local copy of each and decides whether the remote
object changed, using the ETag, the modification time or the size. New content
goes into an in-memory snapshot map, which an HTTP handler serves with a
SHA-256 ETag. Two refresh loops run side by side: the primary track under key
prefix `""` and the alternate track under `"dev_"`. A request path selects its
track with a raw `/dev` string prefix. When a track goes 60 passes without any
update, its `vehicles` entry is replaced by an empty GeoJSON collection and the
loop backs off.

The model has five modules for the components of `vehicle-cache/main.go`, plus `Wrappers`:

- `Routes` (routes.dfy): `resolveKey`, and the route table the handler uses.
- `ChangeDetection` (change_detection.dfy): `downloadS3Object` and
  `getFileContents`.
  - Pure spec functions work over a map that stands for the local directory.
  - Class `LocalDisk` performs the same steps in place, with the same early
    returns.
  - Each poll gets the object store's answer, the file-system faults and the
    clock as one input value, `Poll`.
- `Snapshot` (snapshot.dfy): the shared key → content map, `data.Set`.
- `Refresh` (refresh.dfy): `checkUpdates`.
  - Pure specs cover the preload, one pass (`PassSpec`) and a finite run of
    passes (`Run`).
  - Class `RefreshLoop` holds the counter and performs the preload and a pass
    in place. Its `Pass` is a polling loop proved against `PollAll` and
    `Publish`, then the staleness step; together they meet `PassSpec`.
  - A pass returns its sleep as a number of seconds.
- `Responder` (responder.dfy): the handler's lookup decision (404, or 200 with
  body and ETag), and the isolation of the two tracks.
- `Wrappers` (wrappers.dfy): `Option`.

Times are modelled as (instant, location) pairs. Go's `==` on `time.Time`, used
at line 66, compares the location as well as the instant.

Behaviours of the code that are easy to misread, and which the model follows:

- **Staleness counter.** `runsSinceLastUpdate` is reset by an update of any
  polled document, alerts included, not only by a vehicles change.
  `Refresh.AlertsUpdateDefersPlaceholder` shows that an alerts update alone
  keeps stale vehicle positions in place.
- **No remembered ETag.** The caller never remembers an ETag: both callers pass
  `""`, and the returned ETag is discarded. So the ETag signal fires only for a
  remote ETag of `""`.
- **Replacing the local copy.** Replacement is remove, then create, then copy,
  and is not atomic. A failed copy leaves a partial local file, which the model
  keeps.
- **Local stat errors.** An `os.Stat` error on the local copy, other than
  "does not exist", does not skip the download: the copy is removed, created
  and copied again, and the new bytes are published
  (`ChangeDetection.DownloadSpec`). It is not reported as "no change".
- **Staleness fallback.** While the counter stays at or above 60, every pass
  writes the placeholder again and sleeps `counter` seconds more than the
  normal interval. The backoff therefore grows by one second per pass.
- **Unknown paths.** An unknown path is not turned away by the resolver. It
  resolves to `""`, and the handler then looks up `".json"`. That key is never
  written, so the answer is still 404 (`Responder.UnknownPathNotFound`).

## Model

| member | source | states |
|---|---|---|
| `Routes.HasPrefix` | vehicle-cache/main.go:188 | no ensures of its own: Go's `strings.HasPrefix`, a raw string-prefix test; `TrackOf`, `DevPathsResolve` and `UnknownExamples` (`/devices`) state what it decides |
| `Routes.TrimPrefix` | vehicle-cache/main.go:192 | the result re-prefixed gives the input when the prefix is present; otherwise the input is returned unchanged |
| `Routes.TrackOf` | vehicle-cache/main.go:188 | the track of a path is `""` or `"dev_"` |
| `Routes.ResolveKey` | vehicle-cache/main.go:181-204 | the key is one of the 7 stems; a non-empty key is the path's track prefix followed by a base document; a path outside `/dev` never yields a `dev_` key |
| `Routes.ResolveKeyMatchesSurface` | vehicle-cache/main.go:181-204 | for every path, `resolveKey` equals a lookup in the 9-path HTTP surface table, and is `""` off it |
| `Routes.DevPathsResolve` | vehicle-cache/main.go:188-200 | the same agreement for every path starting with `/dev`: only `/dev`, `/dev/` and `/dev` + a route match |
| `Routes.PrimaryPathsResolve` | vehicle-cache/main.go:197-203 | the same agreement for every path outside `/dev`: only the four routes match |
| `Routes.DevMirrorsPrimary` | vehicle-cache/main.go:188-200 | `/dev` + any route resolves to `dev_` + that route's key |
| `Routes.PrimaryExamples` | vehicle-cache/main.go:182-187 | `/alerts` gives alerts and `/shapes` gives shapes |
| `Routes.DevExamples` | vehicle-cache/main.go:188-200 | `/dev` and `/dev/` give dev_vehicles; `/dev/shapes` and `/dev/alerts` give their dev keys |
| `Routes.UnknownExamples` | vehicle-cache/main.go:181-204 | `/unknown`, `""` and `/devices` (which starts with `/dev`) give `""` |
| `Routes.VehicleRoutes` | vehicle-cache/main.go:182-196 | `/`, `/vehicles`, `/dev`, `/dev/` and `/dev/vehicles` resolve to their track's prefix + `vehicles` |
| `ChangeDetection.StatLocal` | vehicle-cache/main.go:64 | no ensures of its own: the three answers of `os.Stat` (the file, not-exist, another error); `DownloadSpec`'s Unchanged iff states how they are used |
| `ChangeDetection.SameAsLocal` | vehicle-cache/main.go:66 | no ensures of its own: the three-way OR of ETag, modification time and size, kept exactly; `EachSignalSuppressesDownload` and `SameSizeReplacementMissed` state its consequences |
| `ChangeDetection.CopiedBytes` | vehicle-cache/main.go:84 | CopyN leaves a prefix of the body of at most n bytes; it succeeds iff exactly the first n bytes were copied; a complete body succeeds with no fault or with a fault after n bytes; a write fault after k < n bytes leaves exactly the first k bytes and fails |
| `ChangeDetection.ReadBytes` | vehicle-cache/main.go:101-106 | `os.ReadFile` succeeds iff the file exists and no read error occurs, and then returns the whole file; a missing file yields `""`; after a read error at k bytes it returns the first k bytes |
| `ChangeDetection.Replace` | vehicle-cache/main.go:70-91 | replacing never reports Unchanged; a download returns the remote ETag and leaves exactly the remote bytes; with no fault and a complete body it succeeds, whether the local copy is missing or is removed first; it downloads iff the body is complete, the local copy is missing or is present and removable, the create succeeds and no copy fault comes before n bytes; no other file is touched |
| `ChangeDetection.DownloadSpec` | vehicle-cache/main.go:51-92 | Unchanged iff fetched, the local copy was stat'ed and one of ETag, mtime or size agrees; Unchanged and fetch errors leave the directory alone; a download returns the remote ETag and leaves exactly the remote bytes; with no fault and a complete body, an object that differs from the local copy (or has none) is downloaded; it downloads iff fetched, not found equal by a successful os.Stat, the body is complete, the old copy is absent (stat'ed as missing) or removable (an os.Stat error on an existing copy included), the create succeeds and no copy fault comes before n bytes; no other file is touched |
| `ChangeDetection.ContentsSpec` | vehicle-cache/main.go:94-109 | a non-empty result is exactly the bytes of a fresh download; `""` on a fetch, remove, create or copy error, on no change and on any read error; a download read back without error gives exactly the remote bytes |
| `ChangeDetection.ContentsDependOnlyOnOwnFile` | vehicle-cache/main.go:94-109 | getFileContents depends on the local directory only through the file at its own key |
| `ChangeDetection.EachSignalSuppressesDownload` | vehicle-cache/main.go:64-69 | any one of the three equal signals gives Unchanged with the directory untouched, and getFileContents returns `""` |
| `ChangeDetection.SameSizeReplacementMissed` | vehicle-cache/main.go:66 | a different body of the same size, with a new ETag and mtime, is reported as no update |
| `ChangeDetection.EmptyDocumentLooksUnchanged` | vehicle-cache/main.go:94-109 | an empty object is downloaded, yet getFileContents returns `""`, the same as no update |
| `ChangeDetection.LocalDisk.constructor` | vehicle-cache/main.go:171-179 | the directory the loops start from is the given one (the start-up cleanup is not modelled) |
| `ChangeDetection.LocalDisk.ReadFile` | vehicle-cache/main.go:101-106 | the bytes and the error flag are those of `ReadBytes` |
| `ChangeDetection.LocalDisk.DownloadObject` | vehicle-cache/main.go:51-92 | the outcome and the new directory are those of `DownloadSpec` |
| `ChangeDetection.LocalDisk.ReplaceLocalCopy` | vehicle-cache/main.go:70-91 | the outcome and the new directory are those of `Replace` |
| `ChangeDetection.LocalDisk.GetFileContents` | vehicle-cache/main.go:94-109 | the returned string and the new directory are those of `ContentsSpec` |
| `Snapshot.SnapshotStore.constructor` | vehicle-cache/main.go:221 | the shared map starts empty |
| `Snapshot.SnapshotStore.Set` | vehicle-cache/main.go:155 | one entry is inserted or replaced whole; every other entry is kept |
| `Refresh.Publish` | vehicle-cache/main.go:151-158 | no ensures of its own: the publishing half of a pass, as a fold over the polled documents; `PublishResetsCounter`, `PublishKeeps` and `PublishStores` state its properties |
| `Refresh.PublishResetsCounter` | vehicle-cache/main.go:151-158 | after publishing, the counter is 0 iff some update was non-empty, and is unchanged otherwise |
| `Refresh.PublishKeeps` | vehicle-cache/main.go:151-158 | a key under which no non-empty update is published keeps its entry, or its absence |
| `Refresh.PublishStores` | vehicle-cache/main.go:151-158 | with distinct file names, every non-empty update is stored verbatim under prefix + its file name |
| `Refresh.PollAll` | vehicle-cache/main.go:151-153 | one string per polled document |
| `Refresh.PollAllFrame` | vehicle-cache/main.go:151-153 | polling touches no local file outside the polled documents |
| `Refresh.PollAllPolled` | vehicle-cache/main.go:151-153 | the two updates of a pass are getFileContents of alerts and of vehicles, each against the directory the pass started with |
| `Refresh.PublishStep` | vehicle-cache/main.go:151-157 | publishing one more document stores its update if non-empty and resets the counter; an empty one changes nothing |
| `Refresh.PollStep` | vehicle-cache/main.go:151-153 | polling one more document appends what getFileContents returns for it |
| `Refresh.Staleness` | vehicle-cache/main.go:159-166 | no ensures of its own: the staleness check and counter increment; `PassSpec` and `RefreshLoop.CheckStaleness` state its effect |
| `Refresh.PassSpec` | vehicle-cache/main.go:150-167 | the counter ends one above its value at the check; only this track's keys change, and shapes never; non-empty updates are published verbatim; an update means no placeholder and a 2 s sleep; a quiet pass at ≥ 60 sets vehicles to exactly the placeholder and sleeps counter + 2 s; below 60 it changes nothing |
| `Refresh.Run` | vehicle-cache/main.go:150-167 | no ensures of its own: the endless loop as a finite sequence of passes; `RunWritesOnlyTrackKeys`, `QuietRunOnlyCounts` and `OtherTrackInvisible` state its properties |
| `Refresh.RunWritesOnlyTrackKeys` | vehicle-cache/main.go:139-167 | any number of passes leaves every key outside the track's three keys as it was |
| `Refresh.QuietRunOnlyCounts` | vehicle-cache/main.go:159-165 | n passes without updates, staying at or below 60, change no entry and add n to the counter |
| `Refresh.PlaceholderAfterSixtyQuietPasses` | vehicle-cache/main.go:149-165 | from the preload's 0, sixty quiet passes change nothing; the 61st sets vehicles to the placeholder, counts to 61 and sleeps 62 s |
| `Refresh.AlertsUpdateDefersPlaceholder` | vehicle-cache/main.go:151-159 | at or above 60, a pass with only an alerts update resets the counter and leaves the vehicles entry alone |
| `Refresh.TracksDisjoint` | vehicle-cache/main.go:225-226 | the keys of the `""` and `"dev_"` loops are disjoint |
| `Refresh.UnchangedPollsWriteNothing` | vehicle-cache/main.go:151-157 | when both local copies pass the unchanged test, polling rewrites no file and yields two `""`s, and the pass below 60 only counts |
| `Refresh.Bootstrap` | vehicle-cache/main.go:138-149 | intended preload: fatal iff the download fails or the read fails; otherwise, Downloaded or Unchanged, the local shapes copy is published and the counter is 0; a fresh download is published verbatim |
| `Refresh.BootstrapAsWritten` | vehicle-cache/main.go:138-147 | the preload as written never stops; it publishes a prefix of the local shapes copy (`""` without one), the whole copy when the read has no error, whatever the download did, and agrees with `Bootstrap` whenever that succeeds |
| `Refresh.FailedPreloadPublishesEmptyShapes` | vehicle-cache/main.go:140-147 | with the store unreachable and no local copy, the intended preload is fatal, but the written one publishes `""` as shapes |
| `Refresh.BrokenCopyPublishesTruncatedShapes` | vehicle-cache/main.go:138-147 | with no local copy and a copy that breaks after k bytes, the intended preload is fatal with CopyError, but the written one publishes those k bytes |
| `Refresh.PartialReadPublishesTruncatedShapes` | vehicle-cache/main.go:143-147 | an unchanged shapes copy whose read fails after k bytes makes the intended preload fatal, but the written one publishes those k bytes |
| `Refresh.RefreshLoop.constructor` | vehicle-cache/main.go:149 | the loop starts with its counter at 0 |
| `Refresh.RefreshLoop.Preload` | vehicle-cache/main.go:138-147 | the store, counter and directory afterwards are those of `Bootstrap`; a fatal outcome publishes nothing |
| `Refresh.RefreshLoop.Pass` | vehicle-cache/main.go:150-166 | the updates and directory are those of `PollAll`; the store, counter and sleep are those of `PassSpec` |
| `Refresh.RefreshLoop.PollAndPublish` | vehicle-cache/main.go:151-158 | the updates and directory are those of `PollAll`; the store and counter are those of `Publish` |
| `Refresh.RefreshLoop.CheckStaleness` | vehicle-cache/main.go:159-166 | the store, counter and sleep are those of the staleness step that `PassSpec` ends with |
| `Responder.LookupKey` | vehicle-cache/main.go:240 | no ensures of its own: the resolved stem + `".json"`; `LookupKeyInTrack` states which keys it reads |
| `Responder.LookupKeyInTrack` | vehicle-cache/main.go:239-240 | a surface path reads a key of its own track; any other path reads `".json"` |
| `Responder.Respond` | vehicle-cache/main.go:239-263 | 404 iff the looked-up key is absent; otherwise the body is the stored value and the ETag is computed from exactly that body |
| `Responder.UnknownPathNotFound` | vehicle-cache/main.go:239-245 | a path off the surface gets 404 from any store holding only the two tracks' keys |
| `Responder.RunStaysWithinTracks` | vehicle-cache/main.go:225-226 | passes of either loop keep the store within the two tracks' keys |
| `Responder.OtherTrackInvisible` | vehicle-cache/main.go:225-246 | any number of passes of the other track's loop leaves every response on this track unchanged |
| `Responder.OtherPreloadInvisible` | vehicle-cache/main.go:138-147 | the other track's preload, intended or as written, leaves every response on this track unchanged |
| `Responder.VehiclePathsReadVehicles` | vehicle-cache/main.go:239-240 | `/`, `/vehicles`, `/dev`, `/dev/` and `/dev/vehicles` read their track's vehicles key |
| `Responder.VehiclesUpdateServed` | vehicle-cache/main.go:152-155 | after a pass with a vehicles update, a vehicles request on that track gets 200 with exactly that update and its ETag |
| `Responder.ChangedVehiclesServed` | vehicle-cache/main.go:151-155 | when the remote vehicles object differs from the local copy (or there is none), with no fault and non-empty bytes, a vehicles request after the pass gets 200 with exactly the remote bytes and their ETag |
| `Responder.StaleVehiclesServedAsPlaceholder` | vehicle-cache/main.go:159-162 | after a quiet pass at ≥ 60, a vehicles request on that track gets 200 with the placeholder |

## Left out

- **Object-store client.** Client construction, credentials and the environment
  reads (vehicle-cache/main.go:120-130) are left out. What GetObject and Stat
  answer is an input (`Fetch`). A failed `minio.New` is not modelled.
- **Local file system.** `os.Stat`, `os.Remove`, `os.Create`, `io.CopyN` and
  `os.ReadFile` become updates of a map from file name to file. Their failures
  are the inputs in `DiskFaults`.
- **Start-up cleanup.** The `cleanup` glob at start-up (lines 171-179) is not
  modelled. `LocalDisk`'s constructor takes the initial directory instead.
- **SHA-256 and hex formatting.** SHA-256 (FIPS 180-4) and the `%x` formatting
  are the function parameter `etagOf`, and nothing is assumed about it. The 500
  path after hashing (line 249) is left out, because writing into a hash does
  not fail. The 500 path after the body write (line 263) is left out as network
  I/O.
- **Concurrency.** Goroutines and the concurrent haxmap are replaced by one
  sequential map and whole passes. Interleavings of the two loops within a pass,
  and of requests with writes, are not modelled. Neither is the atomicity of a
  haxmap `Set`, but entries are only ever replaced whole.
- **Sleeping.** `time.Sleep` is not performed; a pass returns its sleep in
  seconds. The infinite `for` loop becomes `Run` over a finite sequence of
  passes.
- **Integer widths.** Go `int` and `time.Duration` are modelled as unbounded
  `nat`. The wrap-around of the counter after 2^63 passes, and the Duration
  overflow in the backoff after about 9.2·10^9 passes, are not modelled.
- **Bytes.** Bytes are modelled as characters: Go strings are `string`, with no
  encoding.
- **Plumbing.** Prometheus metrics, zerolog output, HTTP compression, flag
  parsing, response headers other than the ETag, `/metrics` and
  `ListenAndServe` are left out.

## Findings

| source | as written | input that shows it | evidently intended | confidence | as-written member | corrected member |
|---|---|---|---|---|---|---|
| vehicle-cache/main.go:140-147 | `log.Fatal().Err(err)` only builds a zerolog event. The event is sent, and the process exits, only by `Msg`/`Send`. So a failed shapes download or read does not stop the loop: it goes on and publishes what `os.ReadFile` returned: `""` (the string of a nil slice) when the file cannot be opened, or the bytes read before a mid-read error; after a copy that broke off after k bytes, the truncated k-byte file | at start-up, GetObject for `shapes.json` fails and no local `shapes.json` exists | the preload failure is fatal: nothing is published and the loop does not start | high, not executed (rests on zerolog's rule that an event is emitted only by Msg/Send/Msgf) | `Refresh.BootstrapAsWritten`, shown by `Refresh.FailedPreloadPublishesEmptyShapes`, `Refresh.PartialReadPublishesTruncatedShapes` and `Refresh.BrokenCopyPublishesTruncatedShapes` | `Refresh.Bootstrap`, performed by `Refresh.RefreshLoop.Preload` |

=== FILE: change_detection.dfy ===
/**
 * Change detection of one remote object against its local materialized copy
 * (`downloadS3Object`) and the collapse of its outcome to a string
 * (`getFileContents`).
 *
 * The object store, the local file system and the clock are not called: what
 * they answer during one poll is an input (`Poll`), and the local directory is
 * a map from file name to file (`Files`). The spec functions give the outcome
 * and the new directory; class `LocalDisk` performs the same steps in place.
 */
module ChangeDetection {
  import opened Wrappers

  /**
   * A Go time.Time as `==` compares it: the instant and the location. Two
   * values for the same instant in different locations are not `==` in Go.
   */
  datatype Timestamp = Timestamp(unixNanos: int, location: string)

  /** What the object store reports for an object: ETag, size in bytes, last modification. */
  datatype ObjectInfo = ObjectInfo(etag: string, size: nat, lastModified: Timestamp)

  /** A remote object: its metadata and the bytes its reader yields. */
  datatype RemoteObject = RemoteObject(info: ObjectInfo, body: string)

  /** The answer of the object store to GetObject followed by Stat. */
  datatype Fetch = GetObjectFailed | StatFailed | Fetched(obj: RemoteObject)

  /** A local file; its size is the length of its contents. */
  datatype LocalFile = LocalFile(contents: string, modTime: Timestamp)

  /** The local directory: file name to file. */
  type Files = map<string, LocalFile>

  /**
   * Failures the local file system injects during one poll. `copyFailsAfter`
   * is Some(k) when writing the copy fails after at most k bytes;
   * `readFailsAfter` is Some(k) when reading the file back returns an error
   * after at most k bytes (Some(0) covers a file that cannot be opened).
   */
  datatype DiskFaults = DiskFaults(
    statFails: bool, removeFails: bool, createFails: bool,
    copyFailsAfter: Option<nat>, readFailsAfter: Option<nat>)

  const NO_FAULTS := DiskFaults(false, false, false, None, None)

  /** Everything the outside world contributes to one poll of one object. */
  datatype Poll = Poll(fetch: Fetch, faults: DiskFaults, now: Timestamp)

  datatype IoError = GetObjectError | StatObjectError | RemoveError | CreateError | CopyError | ReadError

  /**
   * The result triple (changed, etag, err) of downloadS3Object:
   * Unchanged is (false, "", nil), Downloaded(t) is (true, t, nil),
   * Failed(e) is (false, "", e).
   */
  datatype Download = Unchanged | Downloaded(etag: string) | Failed(error: IoError)

  /** What os.Stat says about a local file. */
  datatype LocalStatus = Present(file: LocalFile) | NotExist | StatError

  function StatLocal(files: Files, key: string, fails: bool): LocalStatus {
    if fails then StatError else if key in files then Present(files[key]) else NotExist
  }

  /**
   * The permissive "unchanged" test: the remembered ETag, the modification
   * time OR the size agreeing with the remote object is enough.
   */
  predicate SameAsLocal(local: LocalFile, etag: string, remote: ObjectInfo) {
    etag == remote.etag || local.modTime == remote.lastModified || |local.contents| == remote.size
  }

  /**
   * io.CopyN(file, body, n): the bytes that end up in the file and whether
   * exactly n bytes were copied. A body shorter than n ends the copy early
   * with an error, as does a write fault.
   */
  function CopiedBytes(body: string, n: nat, failsAfter: Option<nat>): (r: (string, bool))
    // CopyN succeeds exactly when all n bytes of the body reached the file.
    ensures r.1 <==> n <= |body| && r.0 == body[..n]
    ensures |r.0| <= n && |r.0| <= |body| && r.0 == body[..|r.0|]
    ensures failsAfter.None? && n <= |body| ==> r.1
    // A write fault after n bytes or more comes too late to matter.
    ensures failsAfter.Some? && failsAfter.value >= n && n <= |body| ==> r.1
    // A write fault after k < n bytes leaves the first k bytes and fails the copy.
    ensures failsAfter.Some? && failsAfter.value < n && failsAfter.value <= |body| ==>
              r == (body[..failsAfter.value], false)
  {
    var available := if |body| < n then |body| else n;
    var written := if failsAfter.Some? && failsAfter.value < available then failsAfter.value else available;
    (body[..written], written == n)
  }

  /**
   * os.ReadFile(name): the bytes it returns and whether it returned no error.
   * A missing file yields nil (""); an error while reading keeps the bytes
   * read before it.
   */
  function ReadBytes(files: Files, name: string, failsAfter: Option<nat>): (r: (string, bool))
    ensures r.1 <==> failsAfter.None? && name in files
    ensures r.1 ==> r.0 == files[name].contents
    ensures name !in files ==> r.0 == ""
    ensures name in files ==> |r.0| <= |files[name].contents| && r.0 == files[name].contents[..|r.0|]
    ensures name in files && failsAfter.Some? && failsAfter.value <= |files[name].contents| ==>
              r.0 == files[name].contents[..failsAfter.value]
  {
    if name !in files then ("", false)
    else
      var contents := files[name].contents;
      match failsAfter
      case None => (contents, true)
      case Some(k) => (if k < |contents| then contents[..k] else contents, false)
  }

  datatype DownloadResult = DownloadResult(outcome: Download, files: Files)

  /**
   * The second half of downloadS3Object, once the local copy is known to
   * differ: remove it unless os.Stat said it does not exist, create the file,
   * copy the object into it.
   */
  function Replace(files: Files, key: string, local: LocalStatus, obj: RemoteObject, poll: Poll): (r: DownloadResult)
    ensures !r.outcome.Unchanged?
    // A download reports the remote ETag and leaves exactly the remote bytes in the local copy.
    ensures r.outcome.Downloaded? ==>
              r.outcome.etag == obj.info.etag && obj.info.size <= |obj.body|
              && r.files == files[key := LocalFile(obj.body[..obj.info.size], poll.now)]
    // With no fault, a complete object always replaces a missing or an existing local copy.
    ensures (local.NotExist? || key in files) && poll.faults == NO_FAULTS && obj.info.size <= |obj.body| ==>
              r.outcome == Downloaded(obj.info.etag)
    // A download means no step failed: the remove (when there was something to remove), the create and the copy.
    ensures r.outcome.Downloaded? ==>
              (local.NotExist? || !poll.faults.removeFails) && !poll.faults.createFails
              && (poll.faults.copyFailsAfter.None? || poll.faults.copyFailsAfter.value >= obj.info.size)
    // And conversely: whenever every step can succeed, the copy is replaced.
    ensures r.outcome.Downloaded? <==>
              obj.info.size <= |obj.body|
              && (local.NotExist? || (key in files && !poll.faults.removeFails))
              && !poll.faults.createFails
              && (poll.faults.copyFailsAfter.None? || poll.faults.copyFailsAfter.value >= obj.info.size)
    // No other local file is touched.
    ensures forall k :: k != key ==> (k in r.files <==> k in files) && (k in files ==> r.files[k] == files[k])
  {
    if !local.NotExist? && (poll.faults.removeFails || key !in files) then
      DownloadResult(Failed(RemoveError), files)
    else if poll.faults.createFails then
      DownloadResult(Failed(CreateError), if local.NotExist? then files else files - {key})
    else
      var copied := CopiedBytes(obj.body, obj.info.size, poll.faults.copyFailsAfter);
      DownloadResult(
        if copied.1 then Downloaded(obj.info.etag) else Failed(CopyError),
        files[key := LocalFile(copied.0, poll.now)])
  }

  /**
   * downloadS3Object: fetch, compare with the local copy, and when it differs
   * replace the local copy.
   */
  function DownloadSpec(files: Files, key: string, etag: string, poll: Poll): (r: DownloadResult)
    // Unchanged exactly when the fetch succeeded, a local copy was found and one of the three signals agrees.
    ensures r.outcome.Unchanged? <==>
              poll.fetch.Fetched? && !poll.faults.statFails && key in files
              && SameAsLocal(files[key], etag, poll.fetch.obj.info)
    // Unchanged and fetch failures leave the local directory as it was.
    ensures r.outcome.Unchanged? || !poll.fetch.Fetched? ==> r.files == files
    ensures !poll.fetch.Fetched? ==> r.outcome.Failed?
    // A download reports the remote ETag and leaves exactly the remote bytes in the local copy.
    ensures r.outcome.Downloaded? ==>
              poll.fetch.Fetched? && r.outcome.etag == poll.fetch.obj.info.etag
              && poll.fetch.obj.info.size <= |poll.fetch.obj.body|
              && r.files == files[key := LocalFile(poll.fetch.obj.body[..poll.fetch.obj.info.size], poll.now)]
    // With no fault, a complete object that differs from the local copy, or has none, is always downloaded.
    ensures (poll.fetch.Fetched? && poll.faults == NO_FAULTS
             && poll.fetch.obj.info.size <= |poll.fetch.obj.body|
             && !(key in files && SameAsLocal(files[key], etag, poll.fetch.obj.info)))
            ==> r.outcome == Downloaded(poll.fetch.obj.info.etag)
    // A remove, create or copy fault on the way makes the download fail.
    ensures r.outcome.Downloaded? ==>
              ((poll.faults.statFails || key in files) ==> !poll.faults.removeFails)
              && !poll.faults.createFails
              && (poll.faults.copyFailsAfter.None? || poll.faults.copyFailsAfter.value >= poll.fetch.obj.info.size)
    // Exactly when the download happens. An os.Stat error on an existing copy is
    // not fatal: the copy is removed and replaced as if it differed.
    ensures r.outcome.Downloaded? <==>
              poll.fetch.Fetched?
              && !(!poll.faults.statFails && key in files && SameAsLocal(files[key], etag, poll.fetch.obj.info))
              && poll.fetch.obj.info.size <= |poll.fetch.obj.body|
              && ((!poll.faults.statFails && key !in files) || (key in files && !poll.faults.removeFails))
              && !poll.faults.createFails
              && (poll.faults.copyFailsAfter.None? || poll.faults.copyFailsAfter.value >= poll.fetch.obj.info.size)
    // No other local file is touched.
    ensures forall k :: k != key ==> (k in r.files <==> k in files) && (k in files ==> r.files[k] == files[k])
  {
    match poll.fetch
    case GetObjectFailed => DownloadResult(Failed(GetObjectError), files)
    case StatFailed => DownloadResult(Failed(StatObjectError), files)
    case Fetched(obj) =>
      var local := StatLocal(files, key, poll.faults.statFails);
      if local.Present? && SameAsLocal(local.file, etag, obj.info) then
        DownloadResult(Unchanged, files)
      else
        Replace(files, key, local, obj, poll)
  }

  datatype ContentsResult = ContentsResult(update: string, files: Files)

  /**
   * getFileContents: download with no remembered ETag, and on a real change
   * read the fresh local copy back; "" for an error or for no change.
   */
  function ContentsSpec(files: Files, key: string, poll: Poll): (r: ContentsResult)
    ensures r.files == DownloadSpec(files, key, "", poll).files
    // A non-empty update is exactly the bytes of a freshly downloaded object.
    ensures r.update != "" ==>
              DownloadSpec(files, key, "", poll).outcome.Downloaded?
              && r.update == poll.fetch.obj.body[..poll.fetch.obj.info.size]
    // Errors and unchanged objects both yield "".
    ensures !DownloadSpec(files, key, "", poll).outcome.Downloaded? ==> r.update == ""
    // A read error yields "", whatever was read before it.
    ensures poll.faults.readFailsAfter.Some? ==> r.update == ""
    // So does a remove, create or copy fault that fails the download.
    ensures ((poll.faults.statFails || key in files) && poll.faults.removeFails) || poll.faults.createFails
            || (poll.fetch.Fetched? && poll.faults.copyFailsAfter.Some?
                && poll.faults.copyFailsAfter.value < poll.fetch.obj.info.size)
            ==> r.update == ""
    // A download that can be read back yields its bytes, even when they are empty.
    ensures DownloadSpec(files, key, "", poll).outcome.Downloaded? && poll.faults.readFailsAfter.None? ==>
              r.update == poll.fetch.obj.body[..poll.fetch.obj.info.size]
  {
    var d := DownloadSpec(files, key, "", poll);
    match d.outcome
    case Failed(_) => ContentsResult("", d.files)
    case Unchanged => ContentsResult("", d.files)
    case Downloaded(_) =>
      var read := ReadBytes(d.files, key, poll.faults.readFailsAfter);
      ContentsResult(if read.1 then read.0 else "", d.files)
  }

  /**
   * getFileContents depends on the local directory only through the file at
   * its own key.
   */
  lemma ContentsDependOnlyOnOwnFile(files1: Files, files2: Files, key: string, poll: Poll)
    requires (key in files1 <==> key in files2) && (key in files1 ==> files1[key] == files2[key])
    ensures ContentsSpec(files1, key, poll).update == ContentsSpec(files2, key, poll).update
  {
    var d1 := DownloadSpec(files1, key, "", poll);
    var d2 := DownloadSpec(files2, key, "", poll);
    assert d1.outcome.Unchanged? == d2.outcome.Unchanged?;
    if d1.outcome.Downloaded? && d2.outcome.Downloaded? {
      assert d1.files[key] == d2.files[key];
    }
  }

  /**
   * Any one of the three signals suppresses the download on its own, even when
   * the other two disagree.
   */
  lemma EachSignalSuppressesDownload(files: Files, key: string, etag: string, poll: Poll)
    requires poll.fetch.Fetched? && !poll.faults.statFails && key in files
    requires etag == poll.fetch.obj.info.etag
             || files[key].modTime == poll.fetch.obj.info.lastModified
             || |files[key].contents| == poll.fetch.obj.info.size
    ensures DownloadSpec(files, key, etag, poll) == DownloadResult(Unchanged, files)
    ensures etag == "" ==> ContentsSpec(files, key, poll) == ContentsResult("", files)
  {
  }

  /**
   * The cost of the permissive test: a replacement of the same size, with a
   * new ETag and a new modification time, is reported as no update.
   */
  lemma SameSizeReplacementMissed()
    ensures
      var now := Timestamp(2000, "Local");
      var local := LocalFile("[1]", Timestamp(1000, "Local"));
      var remote := RemoteObject(ObjectInfo("def", 3, Timestamp(1500, "UTC")), "[2]");
      var poll := Poll(Fetched(remote), NO_FAULTS, now);
      remote.body != local.contents
      && ContentsSpec(map["vehicles.json" := local], "vehicles.json", poll).update == ""
  {
    var local := LocalFile("[1]", Timestamp(1000, "Local"));
    var remote := RemoteObject(ObjectInfo("def", 3, Timestamp(1500, "UTC")), "[2]");
    assert remote.body[1] != local.contents[1];
    assert SameAsLocal(local, "", remote.info);
  }

  /** An object whose bytes are empty is downloaded, yet reads as "no update". */
  lemma EmptyDocumentLooksUnchanged(files: Files, key: string, poll: Poll)
    requires poll.fetch.Fetched? && poll.faults == NO_FAULTS && key !in files
    requires poll.fetch.obj.info.size == 0
    ensures DownloadSpec(files, key, "", poll).outcome.Downloaded?
    ensures ContentsSpec(files, key, poll).update == ""
  {
  }

  /**
   * The local directory. Only the poll loop of a track touches the files of
   * that track, so the directory is shared by both tracks without conflict.
   */
  class LocalDisk {
    var files: Files

    constructor(initial: Files)
      ensures files == initial
    {
      files := initial;
    }

    /** os.ReadFile: the bytes read and whether no error was returned. */
    method ReadFile(name: string, failsAfter: Option<nat>) returns (data: string, ok: bool)
      ensures (data, ok) == ReadBytes(files, name, failsAfter)
    {
      if name !in files {
        return "", false;
      }
      data := files[name].contents;
      ok := true;
      if failsAfter.Some? {
        if failsAfter.value < |data| {
          data := data[..failsAfter.value];
        }
        ok := false;
      }
    }

    /** downloadS3Object, step by step with its early returns. */
    method DownloadObject(key: string, etag: string, poll: Poll) returns (d: Download)
      modifies this
      ensures DownloadResult(d, files) == DownloadSpec(old(files), key, etag, poll)
    {
      if poll.fetch.GetObjectFailed? {
        return Failed(GetObjectError);
      }
      if poll.fetch.StatFailed? {
        return Failed(StatObjectError);
      }
      var local := StatLocal(files, key, poll.faults.statFails);
      if local.Present? && SameAsLocal(local.file, etag, poll.fetch.obj.info) {
        return Unchanged;
      }
      d := ReplaceLocalCopy(key, local, poll.fetch.obj, poll);
    }

    /** The remove / create / copy steps of downloadS3Object. */
    method ReplaceLocalCopy(key: string, local: LocalStatus, obj: RemoteObject, poll: Poll) returns (d: Download)
      modifies this
      ensures DownloadResult(d, files) == Replace(old(files), key, local, obj, poll)
    {
      if !local.NotExist? {
        // os.Remove
        if poll.faults.removeFails || key !in files {
          return Failed(RemoveError);
        }
        files := files - {key};
      }
      // os.Create
      if poll.faults.createFails {
        return Failed(CreateError);
      }
      files := files[key := LocalFile("", poll.now)];
      // io.CopyN
      var copied := CopiedBytes(obj.body, obj.info.size, poll.faults.copyFailsAfter);
      files := files[key := LocalFile(copied.0, poll.now)];
      if !copied.1 {
        return Failed(CopyError);
      }
      return Downloaded(obj.info.etag);
    }

    /** getFileContents. */
    method GetFileContents(filename: string, poll: Poll) returns (update: string)
      modifies this
      ensures ContentsResult(update, files) == ContentsSpec(old(files), filename, poll)
    {
      var d := DownloadObject(filename, "", poll);
      if d.Failed? {
        return "";
      }
      if d.Downloaded? {
        var contents, ok := ReadFile(filename, poll.faults.readFailsAfter);
        if !ok {
          return "";
        }
        return contents;
      }
      return "";
    }
  }
}

=== FILE: refresh.dfy ===
/**
 * The refresh loop of one track (`checkUpdates`): a synchronous preload of
 * `shapes`, then passes that poll `alerts` and `vehicles`, publish every
 * non-empty update under the track's prefix, and fall back to an empty
 * vehicles collection once the loop has gone 60 passes without any update.
 *
 * The pure functions give the state after bootstrap, after one pass and after
 * a sequence of passes; class `RefreshLoop` performs the same steps in place on
 * a shared `SnapshotStore` and `LocalDisk`. Sleeps are returned as a number of
 * seconds instead of being performed.
 */
module Refresh {
  import opened Wrappers
  import opened ChangeDetection
  import opened Snapshot

  /** A document: its name and the object key / file name it is stored under. */
  datatype FileDef = FileDef(envName: string, local: string)

  const FILES: seq<FileDef> := [
    FileDef("shapes", "shapes.json"),
    FileDef("alerts", "alerts.json"),
    FileDef("vehicles", "vehicles.json")]

  /** The documents polled on every pass: all but the preloaded `shapes`. */
  const POLLED: seq<FileDef> := FILES[1..]

  /** Passes without an update after which the vehicles entry is reset. */
  const STALE_THRESHOLD: nat := 60

  /** Seconds slept at the end of every pass. */
  const POLL_INTERVAL: nat := 2

  /** The empty GeoJSON collection that replaces stale vehicle positions. */
  const PLACEHOLDER: string := "{\"type\": \"FeatureCollection\", \"features\": []}"

  function ShapesKey(prefix: string): string { prefix + FILES[0].local }
  function AlertsKey(prefix: string): string { prefix + FILES[1].local }
  function VehiclesKey(prefix: string): string { prefix + FILES[2].local }

  /** The snapshot keys (and local file names) of the track with key prefix `prefix`. */
  function TrackKeys(prefix: string): set<string> {
    {ShapesKey(prefix), AlertsKey(prefix), VehiclesKey(prefix)}
  }

  /** The keys a pass over `defs` may write. */
  function KeysOf(prefix: string, defs: seq<FileDef>): set<string> {
    set i | 0 <= i < |defs| :: prefix + defs[i].local
  }

  predicate DistinctLocals(defs: seq<FileDef>) {
    forall i, j :: 0 <= i < j < |defs| ==> defs[i].local != defs[j].local
  }

  /** Some document of the pass brought a non-empty update. */
  predicate AnyUpdate(updates: seq<string>) {
    exists i :: 0 <= i < |updates| && updates[i] != ""
  }

  lemma PrefixInjective(prefix: string, a: string, b: string)
    requires prefix + a == prefix + b
    ensures a == b
  {
    assert a == (prefix + a)[|prefix|..];
    assert b == (prefix + b)[|prefix|..];
  }

  /** The keys of `defs` are those of all but its last document, plus the last one's. */
  lemma KeysOfLast(prefix: string, defs: seq<FileDef>)
    requires |defs| > 0
    ensures KeysOf(prefix, defs) == KeysOf(prefix, defs[..|defs| - 1]) + {prefix + defs[|defs| - 1].local}
  {
    var n := |defs| - 1;
    forall k | k in KeysOf(prefix, defs[..n]) ensures k in KeysOf(prefix, defs) {
      var i :| 0 <= i < n && k == prefix + defs[..n][i].local;
      assert k == prefix + defs[i].local;
    }
    forall k | k in KeysOf(prefix, defs) && k != prefix + defs[n].local ensures k in KeysOf(prefix, defs[..n]) {
      var i :| 0 <= i < |defs| && k == prefix + defs[i].local;
      assert k == prefix + defs[..n][i].local;
    }
  }

  /** The polled documents are alerts then vehicles, under their own keys, inside the track. */
  lemma PolledFacts(prefix: string)
    ensures |POLLED| == 2 && DistinctLocals(POLLED)
    ensures prefix + POLLED[0].local == AlertsKey(prefix)
    ensures prefix + POLLED[1].local == VehiclesKey(prefix)
    ensures AlertsKey(prefix) != VehiclesKey(prefix)
    ensures KeysOf(prefix, POLLED) == {AlertsKey(prefix), VehiclesKey(prefix)}
  {
    assert "alerts.json"[0] != "vehicles.json"[0];
    if AlertsKey(prefix) == VehiclesKey(prefix) {
      PrefixInjective(prefix, "alerts.json", "vehicles.json");
    }
  }

  datatype LoopState = LoopState(data: map<string, string>, runs: nat)

  /**
   * The publishing half of a pass over `defs`: each non-empty update replaces
   * its entry and resets the counter; an empty one changes nothing.
   */
  function Publish(s: LoopState, prefix: string, defs: seq<FileDef>, updates: seq<string>): LoopState
    requires |updates| == |defs|
    decreases |defs|
  {
    if |defs| == 0 then s
    else
      var n := |defs| - 1;
      var before := Publish(s, prefix, defs[..n], updates[..n]);
      if updates[n] != "" then LoopState(before.data[prefix + defs[n].local := updates[n]], 0)
      else before
  }

  /** The counter after publishing is reset exactly when some update is non-empty. */
  lemma {:induction false} PublishResetsCounter(s: LoopState, prefix: string, defs: seq<FileDef>, updates: seq<string>)
    requires |updates| == |defs|
    ensures Publish(s, prefix, defs, updates).runs == (if AnyUpdate(updates) then 0 else s.runs)
    decreases |defs|
  {
    if |defs| > 0 {
      var n := |defs| - 1;
      PublishResetsCounter(s, prefix, defs[..n], updates[..n]);
      if AnyUpdate(updates[..n]) {
        var i :| 0 <= i < n && updates[..n][i] != "";
        assert updates[i] != "";
      }
      if AnyUpdate(updates) && updates[n] == "" {
        var i :| 0 <= i < |updates| && updates[i] != "";
        assert updates[..n][i] != "";
      }
    } else {
      assert !AnyUpdate(updates);
    }
  }

  /** A key that no non-empty update is published under keeps its entry. */
  lemma {:induction false} PublishKeeps(s: LoopState, prefix: string, defs: seq<FileDef>, updates: seq<string>, k: string)
    requires |updates| == |defs|
    requires forall i :: 0 <= i < |defs| && updates[i] != "" ==> prefix + defs[i].local != k
    ensures SameEntry(Publish(s, prefix, defs, updates).data, s.data, k)
    decreases |defs|
  {
    if |defs| > 0 {
      var n := |defs| - 1;
      PublishKeeps(s, prefix, defs[..n], updates[..n], k);
    }
  }

  /** With distinct file names, a non-empty update is what its key holds afterwards. */
  lemma {:induction false} PublishStores(s: LoopState, prefix: string, defs: seq<FileDef>, updates: seq<string>, i: nat)
    requires |updates| == |defs| && DistinctLocals(defs)
    requires i < |defs| && updates[i] != ""
    ensures var r := Publish(s, prefix, defs, updates);
            prefix + defs[i].local in r.data && r.data[prefix + defs[i].local] == updates[i]
    decreases |defs|
  {
    var n := |defs| - 1;
    if i < n {
      PublishStores(s, prefix, defs[..n], updates[..n], i);
      if prefix + defs[n].local == prefix + defs[i].local {
        PrefixInjective(prefix, defs[n].local, defs[i].local);
      }
    }
  }

  datatype PassResult = PassResult(state: LoopState, sleepSeconds: nat)

  /**
   * The tail of a pass, after publishing: at or beyond the threshold the
   * vehicles entry becomes the placeholder and the sleep grows with the
   * counter; then the pass is counted.
   */
  function Staleness(s: LoopState, prefix: string): PassResult {
    if s.runs >= STALE_THRESHOLD then
      PassResult(LoopState(s.data[VehiclesKey(prefix) := PLACEHOLDER], s.runs + 1), s.runs + POLL_INTERVAL)
    else
      PassResult(LoopState(s.data, s.runs + 1), POLL_INTERVAL)
  }

  /**
   * One pass of the loop, given the strings getFileContents returned for
   * alerts and vehicles: publish, then the staleness check, then the counter
   * increment. `sleepSeconds` is the total time the pass sleeps.
   */
  function PassSpec(s: LoopState, prefix: string, updates: seq<string>): (r: PassResult)
    requires |updates| == |POLLED|
    // The counter ends one above its value at the check, which is 0 after any update.
    ensures r.state.runs == (if AnyUpdate(updates) then 0 else s.runs) + 1
    // Only the keys of this track are written.
    ensures forall k :: k !in TrackKeys(prefix) ==> SameEntry(r.state.data, s.data, k)
    // The shapes entry is never written by a pass.
    ensures SameEntry(r.state.data, s.data, ShapesKey(prefix))
    // A non-empty update is published verbatim.
    ensures forall i :: 0 <= i < |POLLED| && updates[i] != "" ==>
              prefix + POLLED[i].local in r.state.data && r.state.data[prefix + POLLED[i].local] == updates[i]
    // An empty alerts result leaves the alerts entry alone.
    ensures updates[0] == "" ==> SameEntry(r.state.data, s.data, AlertsKey(prefix))
    // A pass with an update never writes the placeholder and sleeps the normal interval.
    ensures AnyUpdate(updates) ==>
              r.sleepSeconds == POLL_INTERVAL
              && (updates[1] == "" ==> SameEntry(r.state.data, s.data, VehiclesKey(prefix)))
    // A quiet pass at or beyond the threshold overwrites vehicles with the placeholder and backs off.
    ensures !AnyUpdate(updates) && s.runs >= STALE_THRESHOLD ==>
              r.state.data == s.data[VehiclesKey(prefix) := PLACEHOLDER]
              && r.sleepSeconds == s.runs + POLL_INTERVAL
    // A quiet pass below the threshold changes no entry.
    ensures !AnyUpdate(updates) && s.runs < STALE_THRESHOLD ==>
              r.state.data == s.data && r.sleepSeconds == POLL_INTERVAL
  {
    PolledFacts(prefix);
    var published := Publish(s, prefix, POLLED, updates);
    PublishResetsCounter(s, prefix, POLLED, updates);
    assert forall i :: 0 <= i < |POLLED| && updates[i] != "" ==>
             prefix + POLLED[i].local in published.data && published.data[prefix + POLLED[i].local] == updates[i] by {
      forall i | 0 <= i < |POLLED| && updates[i] != "" {
        PublishStores(s, prefix, POLLED, updates, i);
      }
    }
    assert forall k :: k != AlertsKey(prefix) && k != VehiclesKey(prefix) ==> SameEntry(published.data, s.data, k) by {
      forall k | k != AlertsKey(prefix) && k != VehiclesKey(prefix) {
        PublishKeeps(s, prefix, POLLED, updates, k);
      }
    }
    assert updates[0] == "" ==> SameEntry(published.data, s.data, AlertsKey(prefix)) by {
      if updates[0] == "" { PublishKeeps(s, prefix, POLLED, updates, AlertsKey(prefix)); }
    }
    assert updates[1] == "" ==> SameEntry(published.data, s.data, VehiclesKey(prefix)) by {
      if updates[1] == "" { PublishKeeps(s, prefix, POLLED, updates, VehiclesKey(prefix)); }
    }
    assert !AnyUpdate(updates) ==> published.data == s.data by {
      if !AnyUpdate(updates) {
        assert updates[0] == "" && updates[1] == "";
        assert forall k :: SameEntry(published.data, s.data, k);
        SameEntriesEqual(published.data, s.data);
      }
    }
    assert ShapesKey(prefix) != AlertsKey(prefix) && ShapesKey(prefix) != VehiclesKey(prefix) by {
      assert "shapes.json"[0] != "alerts.json"[0] && "shapes.json"[0] != "vehicles.json"[0];
      if ShapesKey(prefix) == AlertsKey(prefix) { PrefixInjective(prefix, "shapes.json", "alerts.json"); }
      if ShapesKey(prefix) == VehiclesKey(prefix) { PrefixInjective(prefix, "shapes.json", "vehicles.json"); }
    }
    Staleness(published, prefix)
  }

  predicate WellShaped(passes: seq<seq<string>>) {
    forall j :: 0 <= j < |passes| ==> |passes[j]| == |POLLED|
  }

  /** The state after a sequence of passes, oldest first. */
  function Run(s: LoopState, prefix: string, passes: seq<seq<string>>): (r: LoopState)
    requires WellShaped(passes)
    decreases |passes|
  {
    if |passes| == 0 then s
    else PassSpec(Run(s, prefix, passes[..|passes| - 1]), prefix, passes[|passes| - 1]).state
  }

  /** Any number of passes of a track leaves every key outside that track as it was. */
  lemma {:induction false} RunWritesOnlyTrackKeys(s: LoopState, prefix: string, passes: seq<seq<string>>, k: string)
    requires WellShaped(passes)
    requires k !in TrackKeys(prefix)
    ensures SameEntry(Run(s, prefix, passes).data, s.data, k)
    decreases |passes|
  {
    if |passes| > 0 {
      var n := |passes| - 1;
      assert WellShaped(passes[..n]);
      RunWritesOnlyTrackKeys(s, prefix, passes[..n], k);
    }
  }

  /** Passes without updates only count, as long as the threshold is not reached at a check. */
  lemma {:induction false} QuietRunOnlyCounts(s: LoopState, prefix: string, passes: seq<seq<string>>)
    requires WellShaped(passes)
    requires forall j :: 0 <= j < |passes| ==> !AnyUpdate(passes[j])
    requires s.runs + |passes| <= STALE_THRESHOLD
    ensures Run(s, prefix, passes) == LoopState(s.data, s.runs + |passes|)
    decreases |passes|
  {
    if |passes| > 0 {
      var n := |passes| - 1;
      assert WellShaped(passes[..n]);
      QuietRunOnlyCounts(s, prefix, passes[..n]);
      assert !AnyUpdate(passes[n]);
    }
  }

  /**
   * Right after the preload the counter is 0: sixty quiet passes leave every
   * entry as it was, and the next quiet pass replaces vehicles with the
   * placeholder and sleeps 60 + 2 seconds.
   */
  lemma PlaceholderAfterSixtyQuietPasses(
    data: map<string, string>, prefix: string, passes: seq<seq<string>>, next: seq<string>)
    requires WellShaped(passes) && |passes| == STALE_THRESHOLD
    requires forall j :: 0 <= j < |passes| ==> !AnyUpdate(passes[j])
    requires |next| == |POLLED| && !AnyUpdate(next)
    ensures Run(LoopState(data, 0), prefix, passes) == LoopState(data, STALE_THRESHOLD)
    ensures PassSpec(LoopState(data, STALE_THRESHOLD), prefix, next)
            == PassResult(LoopState(data[VehiclesKey(prefix) := PLACEHOLDER], STALE_THRESHOLD + 1),
                          STALE_THRESHOLD + POLL_INTERVAL)
  {
    QuietRunOnlyCounts(LoopState(data, 0), prefix, passes);
  }

  /**
   * The counter counts passes without an update of ANY polled document: an
   * alerts update alone keeps stale vehicle positions from being replaced.
   */
  lemma AlertsUpdateDefersPlaceholder(s: LoopState, prefix: string, alerts: string)
    requires s.runs >= STALE_THRESHOLD && alerts != ""
    ensures var r := PassSpec(s, prefix, [alerts, ""]);
            r.state.runs == 1
            && SameEntry(r.state.data, s.data, VehiclesKey(prefix))
            && r.sleepSeconds == POLL_INTERVAL
  {
    assert [alerts, ""][0] != "";
  }

  /** The primary track ("") and the alternate track ("dev_") write disjoint keys. */
  lemma TracksDisjoint()
    ensures TrackKeys("") !! TrackKeys("dev_")
  {
    var primary := TrackKeys("");
    var dev := TrackKeys("dev_");
    forall k | k in primary ensures k !in dev {
      assert k[0] != 'd';
    }
  }

  // ---------------------------------------------------------------------------
  // Polling: getFileContents for every polled document in turn.

  datatype PollResult = PollResult(updates: seq<string>, files: Files)

  /** The strings getFileContents returns for `defs`, in order, and the local directory afterwards. */
  function PollAll(files: Files, prefix: string, defs: seq<FileDef>, polls: seq<Poll>): (r: PollResult)
    requires |polls| == |defs|
    ensures |r.updates| == |defs|
    decreases |defs|
  {
    if |defs| == 0 then PollResult([], files)
    else
      var n := |defs| - 1;
      var before := PollAll(files, prefix, defs[..n], polls[..n]);
      var c := ContentsSpec(before.files, prefix + defs[n].local, polls[n]);
      PollResult(before.updates + [c.update], c.files)
  }

  /** Polling touches only the local files of this track's documents. */
  lemma {:induction false} PollAllFrame(files: Files, prefix: string, defs: seq<FileDef>, polls: seq<Poll>, k: string)
    requires |polls| == |defs| && k !in KeysOf(prefix, defs)
    ensures var r := PollAll(files, prefix, defs, polls);
            (k in r.files <==> k in files) && (k in files ==> r.files[k] == files[k])
    decreases |defs|
  {
    if |defs| > 0 {
      var n := |defs| - 1;
      KeysOfLast(prefix, defs);
      PollAllFrame(files, prefix, defs[..n], polls[..n], k);
    }
  }

  /**
   * Polling alerts then vehicles in closed form: each document gets what
   * getFileContents says for it against the directory as the pass found it.
   */
  lemma PollAllPolled(files: Files, prefix: string, polls: seq<Poll>)
    requires |polls| == |POLLED|
    ensures PollAll(files, prefix, POLLED, polls).updates
            == [ContentsSpec(files, AlertsKey(prefix), polls[0]).update,
                ContentsSpec(files, VehiclesKey(prefix), polls[1]).update]
  {
    PolledFacts(prefix);
    assert PollAll(files, prefix, POLLED[..0], polls[..0]) == PollResult([], files);
    PollStep(files, prefix, POLLED, polls, 0);
    PollStep(files, prefix, POLLED, polls, 1);
    var first := ContentsSpec(files, AlertsKey(prefix), polls[0]);
    ContentsDependOnlyOnOwnFile(first.files, files, VehiclesKey(prefix), polls[1]);
    assert POLLED[..2] == POLLED && polls[..2] == polls;
  }

  /**
   * Idempotence of unchanged polls: when the local copies of alerts and
   * vehicles both pass the "unchanged" test, the pass rewrites no local file,
   * publishes nothing, and below the threshold only counts.
   */
  lemma UnchangedPollsWriteNothing(files: Files, s: LoopState, prefix: string, polls: seq<Poll>)
    requires |polls| == |POLLED|
    requires forall i :: 0 <= i < |POLLED| ==>
               var key := prefix + POLLED[i].local;
               polls[i].fetch.Fetched? && !polls[i].faults.statFails && key in files
               && SameAsLocal(files[key], "", polls[i].fetch.obj.info)
    requires s.runs < STALE_THRESHOLD
    ensures PollAll(files, prefix, POLLED, polls) == PollResult(["", ""], files)
    ensures PassSpec(s, prefix, ["", ""]) == PassResult(LoopState(s.data, s.runs + 1), POLL_INTERVAL)
  {
    PolledFacts(prefix);
    assert PollAll(files, prefix, POLLED[..0], polls[..0]) == PollResult([], files);
    PollStep(files, prefix, POLLED, polls, 0);
    assert DownloadSpec(files, prefix + POLLED[0].local, "", polls[0]).outcome.Unchanged?;
    PollStep(files, prefix, POLLED, polls, 1);
    assert DownloadSpec(files, prefix + POLLED[1].local, "", polls[1]).outcome.Unchanged?;
    assert POLLED[..2] == POLLED && polls[..2] == polls;
    assert !AnyUpdate(["", ""]);
  }

  // ---------------------------------------------------------------------------
  // Bootstrap: the synchronous preload of shapes.

  datatype BootResult = Ready(state: LoopState, files: Files) | Fatal(error: IoError, files: Files)

  /**
   * The preload as intended: a failed download or a failed read of the local
   * copy is fatal; otherwise the local copy is published under the shapes key
   * and the counter starts at 0.
   */
  function Bootstrap(files: Files, data: map<string, string>, prefix: string, poll: Poll): (r: BootResult)
    ensures r.files == DownloadSpec(files, ShapesKey(prefix), "", poll).files
    ensures DownloadSpec(files, ShapesKey(prefix), "", poll).outcome.Failed? || poll.faults.readFailsAfter.Some? ==> r.Fatal?
    // Otherwise, Downloaded or Unchanged alike, the loop starts.
    ensures !DownloadSpec(files, ShapesKey(prefix), "", poll).outcome.Failed? && poll.faults.readFailsAfter.None? ==> r.Ready?
    ensures r.Ready? ==>
              r.state.runs == 0
              && ShapesKey(prefix) in r.files
              && r.state.data == data[ShapesKey(prefix) := r.files[ShapesKey(prefix)].contents]
    // A fresh download is published verbatim.
    ensures DownloadSpec(files, ShapesKey(prefix), "", poll).outcome.Downloaded? && poll.faults.readFailsAfter.None? ==>
              r.Ready? && r.state.data[ShapesKey(prefix)] == poll.fetch.obj.body[..poll.fetch.obj.info.size]
  {
    var key := ShapesKey(prefix);
    var d := DownloadSpec(files, key, "", poll);
    var read := ReadBytes(d.files, key, poll.faults.readFailsAfter);
    if d.outcome.Failed? then Fatal(d.outcome.error, d.files)
    else if !read.1 then Fatal(ReadError, d.files)
    else Ready(LoopState(data[key := read.0], 0), d.files)
  }

  /**
   * The preload as written: `log.Fatal().Err(err)` builds a log event that is
   * never sent, so neither failure stops the loop, and whatever os.ReadFile
   * returned is published: nothing ("") when the file cannot be opened, the
   * bytes read so far when reading fails midway.
   */
  function BootstrapAsWritten(files: Files, data: map<string, string>, prefix: string, poll: Poll): (r: (LoopState, Files))
    ensures r.1 == DownloadSpec(files, ShapesKey(prefix), "", poll).files
    ensures r.0.runs == 0 && ShapesKey(prefix) in r.0.data
    ensures forall k :: k != ShapesKey(prefix) ==> SameEntry(r.0.data, data, k)
    // What is published is a prefix of the local copy, or "" without one.
    ensures ShapesKey(prefix) !in r.1 ==> r.0.data[ShapesKey(prefix)] == ""
    ensures ShapesKey(prefix) in r.1 ==>
              var published := r.0.data[ShapesKey(prefix)];
              |published| <= |r.1[ShapesKey(prefix)].contents|
              && published == r.1[ShapesKey(prefix)].contents[..|published|]
    // A read without error publishes the whole local file, whatever the download did.
    ensures poll.faults.readFailsAfter.None? && ShapesKey(prefix) in r.1 ==>
              r.0.data[ShapesKey(prefix)] == r.1[ShapesKey(prefix)].contents
    ensures Bootstrap(files, data, prefix, poll).Ready? ==> r.0 == Bootstrap(files, data, prefix, poll).state
  {
    var key := ShapesKey(prefix);
    var d := DownloadSpec(files, key, "", poll);
    var shapes := ReadBytes(d.files, key, poll.faults.readFailsAfter).0;
    (LoopState(data[key := shapes], 0), d.files)
  }

  /**
   * The discrepancy: when the object store cannot be reached at startup and no
   * local copy exists, the intended preload is fatal, but as written the loop
   * carries on and publishes an empty shapes document.
   */
  lemma FailedPreloadPublishesEmptyShapes(files: Files, data: map<string, string>, prefix: string, poll: Poll)
    requires poll.fetch == GetObjectFailed && ShapesKey(prefix) !in files
    ensures Bootstrap(files, data, prefix, poll) == Fatal(GetObjectError, files)
    ensures BootstrapAsWritten(files, data, prefix, poll).0.data[ShapesKey(prefix)] == ""
  {
  }

  /**
   * The same discrepancy on a read error: an unchanged local shapes copy whose
   * read fails after k of its bytes stops the intended preload, but as written
   * those k bytes are published as the shapes document.
   */
  lemma PartialReadPublishesTruncatedShapes(files: Files, data: map<string, string>, prefix: string, poll: Poll, k: nat)
    requires poll.fetch.Fetched? && poll.faults == DiskFaults(false, false, false, None, Some(k))
    requires ShapesKey(prefix) in files && SameAsLocal(files[ShapesKey(prefix)], "", poll.fetch.obj.info)
    requires k < |files[ShapesKey(prefix)].contents|
    ensures Bootstrap(files, data, prefix, poll) == Fatal(ReadError, files)
    ensures BootstrapAsWritten(files, data, prefix, poll).0.data[ShapesKey(prefix)]
            == files[ShapesKey(prefix)].contents[..k]
  {
  }

  /**
   * The same discrepancy on a broken download: with no local shapes copy, a
   * copy that stops after k of the object's bytes stops the intended preload,
   * but as written the truncated file is read back and published.
   */
  lemma BrokenCopyPublishesTruncatedShapes(files: Files, data: map<string, string>, prefix: string, poll: Poll, k: nat)
    requires poll.fetch.Fetched? && poll.faults == DiskFaults(false, false, false, Some(k), None)
    requires ShapesKey(prefix) !in files && k < poll.fetch.obj.info.size <= |poll.fetch.obj.body|
    ensures Bootstrap(files, data, prefix, poll)
            == Fatal(CopyError, files[ShapesKey(prefix) := LocalFile(poll.fetch.obj.body[..k], poll.now)])
    ensures BootstrapAsWritten(files, data, prefix, poll).0.data[ShapesKey(prefix)] == poll.fetch.obj.body[..k]
  {
  }

  // ---------------------------------------------------------------------------
  // The loop of one track, in place.

  /** Publishing one more document extends the publication of the ones before it. */
  lemma PublishStep(s: LoopState, prefix: string, defs: seq<FileDef>, updates: seq<string>, update: string)
    requires |updates| < |defs|
    ensures var i := |updates|;
            var before := Publish(s, prefix, defs[..i], updates);
            Publish(s, prefix, defs[..i + 1], updates + [update])
            == if update != "" then LoopState(before.data[prefix + defs[i].local := update], 0) else before
  {
    var i := |updates|;
    assert defs[..i + 1][..i] == defs[..i];
    assert (updates + [update])[..i] == updates;
  }

  /** Polling one more document extends the polls of the ones before it. */
  lemma PollStep(files: Files, prefix: string, defs: seq<FileDef>, polls: seq<Poll>, i: nat)
    requires i < |defs| == |polls|
    ensures var before := PollAll(files, prefix, defs[..i], polls[..i]);
            var c := ContentsSpec(before.files, prefix + defs[i].local, polls[i]);
            PollAll(files, prefix, defs[..i + 1], polls[..i + 1]) == PollResult(before.updates + [c.update], c.files)
  {
    assert defs[..i + 1][..i] == defs[..i];
    assert polls[..i + 1][..i] == polls[..i];
  }

  class RefreshLoop {
    const prefix: string
    const store: SnapshotStore
    const disk: LocalDisk
    var runsSinceLastUpdate: nat

    /** checkUpdates(data, prefix): the loop starts with its counter at 0. */
    constructor(store: SnapshotStore, disk: LocalDisk, prefix: string)
      ensures this.store == store && this.disk == disk && this.prefix == prefix
      ensures runsSinceLastUpdate == 0
    {
      this.store := store;
      this.disk := disk;
      this.prefix := prefix;
      runsSinceLastUpdate := 0;
    }

    function State(): LoopState
      reads this, store
    {
      LoopState(store.entries, runsSinceLastUpdate)
    }

    /**
     * Preload shapes. A fatal outcome (the process would stop) returns the
     * error and publishes nothing.
     */
    method Preload(poll: Poll) returns (fatal: Option<IoError>)
      modifies this, store, disk
      ensures var spec := Bootstrap(old(disk.files), old(store.entries), prefix, poll);
              disk.files == spec.files
              && (spec.Fatal? ==> fatal == Some(spec.error) && store.entries == old(store.entries))
              && (spec.Ready? ==> fatal == None && State() == spec.state)
    {
      var shapesFile := prefix + FILES[0].local;
      var d := disk.DownloadObject(shapesFile, "", poll);
      if d.Failed? {
        return Some(d.error);
      }
      var shapes, ok := disk.ReadFile(shapesFile, poll.faults.readFailsAfter);
      if !ok {
        return Some(ReadError);
      }
      store.Set(shapesFile, shapes);
      runsSinceLastUpdate := 0;
      return None;
    }

    /**
     * One pass of the loop: poll alerts then vehicles, publish non-empty
     * updates, apply the staleness check and count the pass. Returns the
     * strings getFileContents gave and the seconds the pass sleeps.
     */
    method Pass(polls: seq<Poll>) returns (updates: seq<string>, sleepSeconds: nat)
      requires |polls| == |POLLED|
      modifies this, store, disk
      ensures PollResult(updates, disk.files) == PollAll(old(disk.files), prefix, POLLED, polls)
      ensures PassResult(State(), sleepSeconds) == PassSpec(old(State()), prefix, updates)
    {
      updates := PollAndPublish(POLLED, polls);
      sleepSeconds := CheckStaleness();
    }

    /**
     * The polling half of a pass: getFileContents for each of `defs` in turn,
     * and data.Set of every non-empty result.
     */
    method PollAndPublish(defs: seq<FileDef>, polls: seq<Poll>) returns (updates: seq<string>)
      requires |polls| == |defs|
      modifies this, store, disk
      ensures PollResult(updates, disk.files) == PollAll(old(disk.files), prefix, defs, polls)
      ensures |updates| == |defs|
      ensures State() == Publish(old(State()), prefix, defs, updates)
    {
      ghost var start := State();
      ghost var files0 := disk.files;
      updates := [];
      var i := 0;
      while i < |defs|
        invariant 0 <= i <= |defs| && |updates| == i
        invariant PollResult(updates, disk.files) == PollAll(files0, prefix, defs[..i], polls[..i])
        invariant State() == Publish(start, prefix, defs[..i], updates)
      {
        PollStep(files0, prefix, defs, polls, i);
        var filePath := prefix + defs[i].local;
        var update := disk.GetFileContents(filePath, polls[i]);
        PublishStep(start, prefix, defs, updates, update);
        if update != "" {
          store.Set(filePath, update);
          runsSinceLastUpdate := 0;
        }
        updates := updates + [update];
        i := i + 1;
      }
      assert defs[..i] == defs && polls[..i] == polls;
    }

    /** The tail of a pass: the staleness check, the backoff and the counter increment. */
    method CheckStaleness() returns (sleepSeconds: nat)
      modifies this, store
      ensures PassResult(State(), sleepSeconds) == Staleness(old(State()), prefix)
    {
      sleepSeconds := POLL_INTERVAL;
      if runsSinceLastUpdate >= STALE_THRESHOLD {
        store.Set(prefix + FILES[2].local, PLACEHOLDER);
        sleepSeconds := runsSinceLastUpdate + POLL_INTERVAL;
      }
      runsSinceLastUpdate := runsSinceLastUpdate + 1;
    }
  }
}

=== FILE: responder.dfy ===
/**
 * The lookup decision of the HTTP handler: resolve the path, read
 * `key + ".json"` from the snapshot store, answer 404 when it is absent and
 * otherwise 200 with the stored bytes and their ETag.
 *
 * The ETag is the lower-case hex SHA-256 of the body; the hash and its
 * formatting are the parameter `etagOf`, about which nothing is assumed.
 */
module Responder {
  import opened Routes
  import opened Snapshot
  import opened ChangeDetection
  import opened Refresh

  datatype Response = NotFound | Ok(body: string, etag: string)

  /** The three stems followed by ".json" are the three document file names. */
  lemma StemsNameFiles(track: string, base: string)
    requires base in BASE_KEYS
    ensures (track + base) + ".json" in TrackKeys(track)
  {
    assert (track + base) + ".json" == track + (base + ".json");
    assert "shapes" + ".json" == FILES[0].local;
    assert "alerts" + ".json" == FILES[1].local;
    assert "vehicles" + ".json" == FILES[2].local;
  }

  /** ".json" is shorter than every document key, so no track ever writes it. */
  lemma BareSuffixInNoTrack(prefix: string)
    ensures ".json" !in TrackKeys(prefix)
  {
  }

  /** The snapshot key the handler reads for a path: the resolved stem + ".json". */
  function LookupKey(urlPath: string): string {
    ResolveKey(urlPath) + ".json"
  }

  /**
   * A path on the HTTP surface reads a key of its own track; any other path
   * reads the bare ".json".
   */
  lemma LookupKeyInTrack(urlPath: string)
    ensures urlPath in SURFACE ==> LookupKey(urlPath) in TrackKeys(TrackOf(urlPath))
    ensures urlPath !in SURFACE ==> LookupKey(urlPath) == ".json"
  {
    ResolveKeyMatchesSurface(urlPath);
    var key := ResolveKey(urlPath);
    if key != "" {
      var base :| base in BASE_KEYS && key == TrackOf(urlPath) + base;
      StemsNameFiles(TrackOf(urlPath), base);
    }
  }

  /** The handler's answer to a GET of `urlPath` against the snapshot `data`. */
  function Respond(data: map<string, string>, urlPath: string, etagOf: string -> string): (r: Response)
    ensures r.NotFound? <==> LookupKey(urlPath) !in data
    // The body is a stored value, whole, and the ETag is computed from exactly that body.
    ensures r.Ok? ==> r.body == data[LookupKey(urlPath)] && r.etag == etagOf(r.body)
  {
    var name := LookupKey(urlPath);
    if name in data then Ok(data[name], etagOf(data[name])) else NotFound
  }

  /** The key space the two refresh loops write: the primary track and the "dev_" track. */
  predicate WithinTracks(data: map<string, string>) {
    forall k :: k in data ==> k in TrackKeys("") || k in TrackKeys(DEV_KEY)
  }

  /** A path off the HTTP surface is answered 404 by any store the loops can produce. */
  lemma UnknownPathNotFound(data: map<string, string>, urlPath: string, etagOf: string -> string)
    requires WithinTracks(data) && urlPath !in SURFACE
    ensures Respond(data, urlPath, etagOf) == NotFound
  {
    LookupKeyInTrack(urlPath);
    BareSuffixInNoTrack("");
    BareSuffixInNoTrack(DEV_KEY);
  }

  /** Passes of a loop keep the store inside the two tracks' key space. */
  lemma RunStaysWithinTracks(s: LoopState, prefix: string, passes: seq<seq<string>>)
    requires WellShaped(passes) && WithinTracks(s.data)
    requires prefix == "" || prefix == DEV_KEY
    ensures WithinTracks(Run(s, prefix, passes).data)
  {
    var r := Run(s, prefix, passes);
    forall k | k in r.data && k !in TrackKeys(prefix)
      ensures k in s.data
    {
      RunWritesOnlyTrackKeys(s, prefix, passes, k);
    }
  }

  /** The other track: the key prefix whose loop must stay invisible to `urlPath`. */
  function OtherTrack(urlPath: string): (prefix: string)
    ensures prefix != TrackOf(urlPath) && (prefix == "" || prefix == DEV_KEY)
  {
    if TrackOf(urlPath) == "" then DEV_KEY else ""
  }

  /**
   * Track isolation: whatever the other track's loop publishes, over any
   * number of passes, a request on this track gets the same answer.
   */
  lemma OtherTrackInvisible(s: LoopState, passes: seq<seq<string>>, urlPath: string, etagOf: string -> string)
    requires WellShaped(passes)
    ensures Respond(Run(s, OtherTrack(urlPath), passes).data, urlPath, etagOf) == Respond(s.data, urlPath, etagOf)
  {
    var name := LookupKey(urlPath);
    LookupKeyInTrack(urlPath);
    TracksDisjoint();
    BareSuffixInNoTrack(OtherTrack(urlPath));
    assert name !in TrackKeys(OtherTrack(urlPath));
    RunWritesOnlyTrackKeys(s, OtherTrack(urlPath), passes, name);
  }

  /**
   * Track isolation for the preload: the other track's shapes write, intended
   * or as written, leaves every response on this track unchanged.
   */
  lemma OtherPreloadInvisible(files: Files, data: map<string, string>, poll: Poll, urlPath: string, etagOf: string -> string)
    ensures var boot := Bootstrap(files, data, OtherTrack(urlPath), poll);
            boot.Ready? ==> Respond(boot.state.data, urlPath, etagOf) == Respond(data, urlPath, etagOf)
    ensures Respond(BootstrapAsWritten(files, data, OtherTrack(urlPath), poll).0.data, urlPath, etagOf)
            == Respond(data, urlPath, etagOf)
  {
    LookupKeyInTrack(urlPath);
    TracksDisjoint();
    BareSuffixInNoTrack(OtherTrack(urlPath));
    assert LookupKey(urlPath) != ShapesKey(OtherTrack(urlPath));
  }

  /** The paths that read the vehicles document of their track. */
  const VEHICLE_PATHS: set<string> := {"/", "/vehicles", "/dev", "/dev/", "/dev/vehicles"}

  lemma VehiclePathsReadVehicles(urlPath: string)
    requires urlPath in VEHICLE_PATHS
    ensures LookupKey(urlPath) == VehiclesKey(TrackOf(urlPath))
  {
    VehicleRoutes(urlPath);
    var track := TrackOf(urlPath);
    assert (track + "vehicles") + ".json" == track + ("vehicles" + ".json");
    assert "vehicles" + ".json" == FILES[2].local;
  }

  /**
   * End to end: after a pass of a track that brought a vehicles update, a
   * vehicles request on that track is served exactly that update with the
   * ETag of exactly those bytes.
   */
  lemma VehiclesUpdateServed(s: LoopState, urlPath: string, updates: seq<string>, etagOf: string -> string)
    requires urlPath in VEHICLE_PATHS
    requires |updates| == |POLLED| && updates[1] != ""
    ensures Respond(PassSpec(s, TrackOf(urlPath), updates).state.data, urlPath, etagOf)
            == Ok(updates[1], etagOf(updates[1]))
  {
    VehiclePathsReadVehicles(urlPath);
    PolledFacts(TrackOf(urlPath));
  }

  /** A stale track answers vehicles requests with the placeholder collection. */
  lemma StaleVehiclesServedAsPlaceholder(s: LoopState, urlPath: string, updates: seq<string>, etagOf: string -> string)
    requires urlPath in VEHICLE_PATHS
    requires |updates| == |POLLED| && !AnyUpdate(updates) && s.runs >= STALE_THRESHOLD
    ensures Respond(PassSpec(s, TrackOf(urlPath), updates).state.data, urlPath, etagOf)
            == Ok(PLACEHOLDER, etagOf(PLACEHOLDER))
  {
    VehiclePathsReadVehicles(urlPath);
  }

  /**
   * End to end from the object store: when the vehicles object differs from
   * the local copy (or there is none), polling succeeds and the bytes are not
   * empty, a vehicles request after the pass is served exactly the remote
   * bytes, with the ETag of exactly those bytes.
   */
  lemma ChangedVehiclesServed(files: Files, s: LoopState, urlPath: string, polls: seq<Poll>, etagOf: string -> string)
    requires urlPath in VEHICLE_PATHS && |polls| == |POLLED|
    requires polls[1].fetch.Fetched? && polls[1].faults == NO_FAULTS
    requires 0 < polls[1].fetch.obj.info.size <= |polls[1].fetch.obj.body|
    requires !(VehiclesKey(TrackOf(urlPath)) in files
               && SameAsLocal(files[VehiclesKey(TrackOf(urlPath))], "", polls[1].fetch.obj.info))
    ensures var obj := polls[1].fetch.obj;
            var updates := PollAll(files, TrackOf(urlPath), POLLED, polls).updates;
            Respond(PassSpec(s, TrackOf(urlPath), updates).state.data, urlPath, etagOf)
            == Ok(obj.body[..obj.info.size], etagOf(obj.body[..obj.info.size]))
  {
    var obj := polls[1].fetch.obj;
    var updates := PollAll(files, TrackOf(urlPath), POLLED, polls).updates;
    PollAllPolled(files, TrackOf(urlPath), polls);
    assert updates[1] == obj.body[..obj.info.size];
    assert updates[1] != "" by { assert |updates[1]| == obj.info.size; }
    VehiclesUpdateServed(s, urlPath, updates, etagOf);
  }
}

=== FILE: routes.dfy ===
/**
 * The key resolver of the HTTP path: `resolveKey` maps a request path to the
 * stem of a snapshot key ("vehicles", "dev_alerts", ...), or to "" when the
 * path names no document.
 */
module Routes {

  /** The route table of the primary track. */
  const ROUTE_MAP: map<string, string> :=
    map["/alerts" := "alerts", "/shapes" := "shapes", "/" := "vehicles", "/vehicles" := "vehicles"]

  /** Path prefix that selects the alternate track (a raw string prefix, not a path segment). */
  const DEV_PATH := "/dev"

  /** Key prefix under which the alternate track publishes. */
  const DEV_KEY := "dev_"

  /** The three document stems every track publishes. */
  const BASE_KEYS: set<string> := {"alerts", "shapes", "vehicles"}

  /** Every value `ResolveKey` can return. */
  const RESOLVED_KEYS: set<string> :=
    {"", "alerts", "shapes", "vehicles", "dev_alerts", "dev_shapes", "dev_vehicles"}

  /**
   * The HTTP surface written out path by path: every path that names a
   * document, with the key it resolves to. Independent of the prefix-stripping
   * algorithm of `ResolveKey`.
   */
  const SURFACE: map<string, string> := map[
    "/" := "vehicles", "/vehicles" := "vehicles", "/alerts" := "alerts", "/shapes" := "shapes",
    "/dev" := "dev_vehicles", "/dev/" := "dev_vehicles", "/dev/vehicles" := "dev_vehicles",
    "/dev/alerts" := "dev_alerts", "/dev/shapes" := "dev_shapes"]

  /** Go's strings.HasPrefix. */
  predicate HasPrefix(s: string, prefix: string) {
    |prefix| <= |s| && s[..|prefix|] == prefix
  }

  /** Go's strings.TrimPrefix: drops `prefix` once when `s` starts with it. */
  function TrimPrefix(s: string, prefix: string): (r: string)
    ensures HasPrefix(s, prefix) ==> prefix + r == s
    ensures !HasPrefix(s, prefix) ==> r == s
  {
    if HasPrefix(s, prefix) then s[|prefix|..] else s
  }

  /** The track a request path belongs to, as the key prefix that track publishes under. */
  function TrackOf(urlPath: string): (prefix: string)
    ensures prefix == "" || prefix == DEV_KEY
  {
    if HasPrefix(urlPath, DEV_PATH) then DEV_KEY else ""
  }

  /** resolveKey: a route-table lookup after stripping the "/dev" track prefix. */
  function ResolveKey(urlPath: string): (key: string)
    ensures key in RESOLVED_KEYS
    ensures key != "" ==> exists base :: base in BASE_KEYS && key == TrackOf(urlPath) + base
    ensures !HasPrefix(urlPath, DEV_PATH) ==> !HasPrefix(key, DEV_KEY)
  {
    var isDev := HasPrefix(urlPath, DEV_PATH);
    var path :=
      if isDev then
        var rest := TrimPrefix(urlPath, DEV_PATH);
        if rest == "" then "/vehicles" else rest
      else urlPath;
    if path in ROUTE_MAP then
      DevKeysSpelled();
      if isDev then DEV_KEY + ROUTE_MAP[path] else ROUTE_MAP[path]
    else ""
  }

  /** The alternate-track keys spelled out, and no primary key carries the "dev_" prefix. */
  lemma DevKeysSpelled()
    ensures DEV_KEY + "alerts" == "dev_alerts"
    ensures DEV_KEY + "shapes" == "dev_shapes"
    ensures DEV_KEY + "vehicles" == "dev_vehicles"
    ensures forall base :: base in BASE_KEYS ==> !HasPrefix(base, DEV_KEY)
  {
    assert "alerts"[0] == 'a' && "shapes"[0] == 's' && "vehicles"[0] == 'v';
  }

  /** No path of the surface other than the "/dev" ones starts with "/dev". */
  lemma PrimarySurfaceNotDev(p: string)
    requires p in ROUTE_MAP
    ensures !HasPrefix(p, DEV_PATH)
  {
    assert "/alerts"[1] == 'a' && "/shapes"[1] == 's' && "/vehicles"[1] == 'v';
  }

  /** The remainder after "/dev" is unique: "/dev" + a == "/dev" + b only when a == b. */
  lemma DevConcatInjective(a: string, b: string)
    requires DEV_PATH + a == DEV_PATH + b
    ensures a == b
  {
    assert a == (DEV_PATH + a)[|DEV_PATH|..];
    assert b == (DEV_PATH + b)[|DEV_PATH|..];
  }

  /**
   * `ResolveKey` agrees with the surface table on every path: the paths of the
   * table resolve to their listed key, and every other path resolves to "".
   */
  lemma ResolveKeyMatchesSurface(urlPath: string)
    ensures ResolveKey(urlPath) == (if urlPath in SURFACE then SURFACE[urlPath] else "")
  {
    if HasPrefix(urlPath, DEV_PATH) {
      DevPathsResolve(urlPath);
    } else {
      PrimaryPathsResolve(urlPath);
    }
  }

  /** On the alternate track the table entries are exactly "/dev" followed by a primary route or by nothing. */
  lemma DevPathsResolve(urlPath: string)
    requires HasPrefix(urlPath, DEV_PATH)
    ensures ResolveKey(urlPath) == (if urlPath in SURFACE then SURFACE[urlPath] else "")
  {
    var rest := TrimPrefix(urlPath, DEV_PATH);
    assert urlPath == DEV_PATH + rest;
    assert urlPath !in ROUTE_MAP by {
      if urlPath in ROUTE_MAP { PrimarySurfaceNotDev(urlPath); }
    }
    DevKeysSpelled();
    if rest == "" {
      assert urlPath == "/dev";
    } else if rest == "/" {
      assert urlPath == "/dev/";
    } else if rest == "/vehicles" {
      assert urlPath == "/dev/vehicles";
    } else if rest == "/alerts" {
      assert urlPath == "/dev/alerts";
    } else if rest == "/shapes" {
      assert urlPath == "/dev/shapes";
    } else {
      assert rest !in ROUTE_MAP;
    }
  }

  /** Off the alternate track the table entries are exactly the primary route table. */
  lemma PrimaryPathsResolve(urlPath: string)
    requires !HasPrefix(urlPath, DEV_PATH)
    ensures ResolveKey(urlPath) == (if urlPath in SURFACE then SURFACE[urlPath] else "")
  {
    assert "/dev"[..4] == DEV_PATH;
    assert "/dev/"[..4] == DEV_PATH;
    assert "/dev/vehicles"[..4] == DEV_PATH;
    assert "/dev/alerts"[..4] == DEV_PATH;
    assert "/dev/shapes"[..4] == DEV_PATH;
  }

  /** Every primary route has an alternate-track twin: "/dev" + route resolves to "dev_" + its key. */
  lemma DevMirrorsPrimary(route: string)
    requires route in ROUTE_MAP
    ensures ResolveKey(DEV_PATH + route) == DEV_KEY + ResolveKey(route)
  {
    PrimarySurfaceNotDev(route);
    assert TrimPrefix(DEV_PATH + route, DEV_PATH) == route by {
      DevConcatInjective(TrimPrefix(DEV_PATH + route, DEV_PATH), route);
    }
  }

  /** The primary-track examples of the HTTP surface (the vehicles routes are `VehicleRoutes`). */
  lemma PrimaryExamples()
    ensures ResolveKey("/alerts") == "alerts" && ResolveKey("/shapes") == "shapes"
  {
    ResolveKeyMatchesSurface("/alerts");
    ResolveKeyMatchesSurface("/shapes");
  }

  /** The alternate-track examples; "/dev/" is a vehicles route because the track test is a raw prefix. */
  lemma DevExamples()
    ensures ResolveKey("/dev") == "dev_vehicles" && ResolveKey("/dev/") == "dev_vehicles"
    ensures ResolveKey("/dev/shapes") == "dev_shapes" && ResolveKey("/dev/alerts") == "dev_alerts"
  {
    ResolveKeyMatchesSurface("/dev");
    ResolveKeyMatchesSurface("/dev/");
    ResolveKeyMatchesSurface("/dev/shapes");
    ResolveKeyMatchesSurface("/dev/alerts");
  }

  /** Paths that name no document, among them "/devices", which starts with "/dev". */
  lemma UnknownExamples()
    ensures ResolveKey("/unknown") == "" && ResolveKey("") == "" && ResolveKey("/devices") == ""
  {
    ResolveKeyMatchesSurface("/unknown");
    ResolveKeyMatchesSurface("");
    ResolveKeyMatchesSurface("/devices");
  }

  /** Every vehicles route of either track resolves to its track's key prefix + "vehicles". */
  lemma VehicleRoutes(urlPath: string)
    requires urlPath in {"/", "/vehicles", "/dev", "/dev/", "/dev/vehicles"}
    ensures ResolveKey(urlPath) == TrackOf(urlPath) + "vehicles"
  {
    if urlPath == "/" || urlPath == "/vehicles" {
      assert "/vehicles"[1] != 'd';
      assert TrackOf(urlPath) == "";
      ResolveKeyMatchesSurface(urlPath);
    } else {
      assert urlPath[..4] == DEV_PATH;
      DevKeysSpelled();
      ResolveKeyMatchesSurface(urlPath);
    }
  }
}

=== FILE: snapshot.dfy ===
/**
 * The snapshot store: the key -> content map shared by the refresh loops
 * (writers) and the HTTP handler (reader). Entries are only ever set, never
 * removed; each Set replaces a whole value at once.
 */
module Snapshot {

  /** Two maps agree on key `k`: both lack it, or both hold the same value. */
  predicate SameEntry(m1: map<string, string>, m2: map<string, string>, k: string) {
    (k in m1 <==> k in m2) && (k in m1 ==> m1[k] == m2[k])
  }

  /** Maps that agree on every key are equal. */
  lemma SameEntriesEqual(m1: map<string, string>, m2: map<string, string>)
    requires forall k :: SameEntry(m1, m2, k)
    ensures m1 == m2
  {
    forall k | k in m1 ensures k in m2 && m1[k] == m2[k] {
      assert SameEntry(m1, m2, k);
    }
    forall k | k in m2 ensures k in m1 {
      assert SameEntry(m1, m2, k);
    }
  }

  class SnapshotStore {
    var entries: map<string, string>

    constructor()
      ensures entries == map[]
    {
      entries := map[];
    }

    /** data.Set: insert or replace one entry; every other entry is kept. */
    method Set(key: string, value: string)
      modifies this
      ensures entries == old(entries)[key := value]
      ensures forall k :: k != key ==> SameEntry(entries, old(entries), k)
    {
      entries := entries[key := value];
    }
  }
}

=== FILE: wrappers.dfy ===
/** The Option datatype shared by the other modules. */
module Wrappers {

  datatype Option<+T> = None | Some(value: T)

}
